=== FILE: README.md ===
# Client factory of the Octopus Deploy CLI, modelled in Dafny

The CLI reaches the Octopus server only through a client factory. The factory
lazily builds two authenticated client handles and caches them: an unscoped
*system* client, and a client scoped to one *space*. It picks the space from a
user-supplied selector, which may be an ID or a name in any letter case. The
test suite also uses a fake factory (`MockFactory`) with the same lazy caching.

This project models both factories and proves what their tests assert:

- `spaces.dfy` (module `Spaces`): space resolution as a pure function. The
  selector is compared case-insensitively with every space's name and ID. The
  first name match wins over any ID match. With no match at all, the error is
  `cannot find space '<selector>'`.
- `sdk.dfy` (module `Sdk`): the SDK as opaque stand-ins. It has the two
  credential kinds and the authorization header each produces, the requests a
  client sends, and the server's replies. Client handles are objects, so "the
  same client" means object identity. The client constructor can fail; on
  success it returns a fresh handle.
- `question.dfy` (module `Question`): the prompt provider. It reports whether
  it is interactive and what an `Ask` yields.
- `apiclient.dfy` (module `ApiClient`): the real factory as a class with two
  nullable cache fields. Instead of doing I/O, it appends each request to a
  ghost log. Its contracts give the request order of every build path. They
  also say that a cache, once filled, is returned with no further requests,
  and that a failed build never fills a cache.
- `apiclient_test.dfy` (module `ApiClientTests`): the factory's test cases
  replayed against the model. Each one states the result and the exact request
  log. Two more scenarios, `RetryAfterFailure` and `RetryAfterFailedListing`,
  are not among those tests. They show that a failed build leaves the cache
  empty, so a later call builds again (the lazy creation the fake factory shares with the real one,
  `test/testutil/fakefactory.go:42-43`).
- `fakefactory.dfy` (module `TestUtil`): `MockFactory`, with its constructors,
  lazy caches, space check and prompt delegation.
- `results.dfy` (module `Results`): `Option`, `Result` and `Outcome`.

The source of the real factory is not part of this model. Its behaviour is
taken from its tests in `pkg/apiclient/apiclient_test.go`. The error texts
follow that code: they speak of a "space" and name `OCTOPUS_SPACE` and
`--space`.
With no selector and a prompt available, the model lists the spaces. It takes
the only space when there is exactly one (the auto-selection described at
`pkg/apiclient/apiclient_test.go:102-105`). Otherwise it takes the space the
user picks.

The name-over-ID rule is a sharp edge. A space named like another space's ID
shadows that space. The model keeps this rule, because a test pins it down
(`Spaces.NameWins`, `Spaces.CollisionResolvesByName`).

## Model

| member | source | states |
|---|---|---|
| `Spaces.FirstMatch` | pkg/apiclient/apiclient_test.go:242-273 | Gives the index of the first space whose name (or ID) matches the selector ignoring case, and no earlier space matches. Gives none exactly when no space matches. |
| `Spaces.ResolveSpace` | pkg/apiclient/apiclient_test.go:123-273 | Fails exactly when no space matches the selector by name or by ID. The error is then `cannot find space '<selector>'`. On success, the result is the ID of a listed space that matches by name or by ID. |
| `Spaces.NameWins` | pkg/apiclient/apiclient_test.go:242-273 | If some space's name matches, the result is the ID of the first name match. ID matches anywhere in the list do not change this. |
| `Spaces.IdFallback` | pkg/apiclient/apiclient_test.go:142-190 | With no name match, the result is the ID of the first space whose ID matches. |
| `Spaces.FirstMatchIgnoresCase` | pkg/apiclient/apiclient_test.go:167-190 | Two selectors that differ only in letter case find the same first match. |
| `Spaces.ResolveIgnoresCase` | pkg/apiclient/apiclient_test.go:167-240 | Two selectors that differ only in letter case resolve to the same space, or both fail. |
| `Spaces.ResolvesById` | pkg/apiclient/apiclient_test.go:142-190 | `Spaces-7` and `spaCeS-7` both resolve to `Spaces-7` against the Integrations space. |
| `Spaces.ResolvesByName` | pkg/apiclient/apiclient_test.go:192-240 | `Integrations` and `iNtegrationS` both resolve to `Spaces-7`. |
| `Spaces.CollisionResolvesByName` | pkg/apiclient/apiclient_test.go:242-273 | Spaces `{Spaces-7, Missed}` and `{Spaces-209, Spaces-7}`: selector `Spaces-7` resolves to `Spaces-209`. |
| `Spaces.UnknownSelectorNotFound` | pkg/apiclient/apiclient_test.go:123-140 | `Integrations` against `[Cloud]` fails with exactly `cannot find space 'Integrations'`. |
| `Sdk.NewClient` | pkg/apiclient/apiclient_test.go:152-160 | Sends the root fetch, then the space document fetch for a scoped client whose root loaded. Fails with the server's error unless both load. On success it returns a fresh handle bound to the URL, credential and space ID. |
| `Sdk.GetAllSpaces` | pkg/apiclient/apiclient_test.go:133-135 | Sends one listing request with the client's credential and returns the server's listing or its error. |
| `ApiClient.ChooseSpace` | pkg/apiclient/apiclient_test.go:101-140 | With a selector, the choice is the resolution above. With none, it is the only space when there is exactly one. Otherwise it is the ID of the space at the index the user picked, or the prompt's own error. Any chosen ID is the ID of a listed space. |
| `ApiClient.ClientFactory.constructor` | pkg/apiclient/apiclient_test.go:24-26 | A new factory has both caches empty and has sent no request. |
| `ApiClient.ClientFactory.GetSystemClient` | pkg/apiclient/apiclient_test.go:20-87 | A cached client is returned as the same object with no request. Otherwise the factory sends exactly one root fetch. On success it caches and returns a fresh client. On failure it returns the server's error and the cache stays empty. Every request carries the credential's header. |
| `ApiClient.ClientFactory.GetSpacedClient` | pkg/apiclient/apiclient_test.go:90-331 | A cached spaced client is returned as the same object with no request. Otherwise: a root fetch if no system client is cached; then the no-prompt error, or the listing, the choice and a client build for the chosen ID. A failed build never fills the spaced cache, and a filled system cache is never replaced. |
| `ApiClient.ClientFactory.BuildSpacedClient` | pkg/apiclient/apiclient_test.go:142-165 | After the system client: the empty-selector error without a prompt and no request, or the listing, the choice of space, and the root and space-document fetches for the chosen ID. |
| `ApiClientTests.SystemClientIsCached` | pkg/apiclient/apiclient_test.go:44-67 | Two `GetSystemClient` calls return the same handle, and only one root fetch is sent. |
| `ApiClientTests.SystemClientSendsBearerToken` | pkg/apiclient/apiclient_test.go:69-87 | With access token `token`, the root fetch carries `Bearer token`. |
| `ApiClientTests.NoSpaceWithoutPrompt` | pkg/apiclient/apiclient_test.go:97-121 | No selector and no prompt: the factory fails with exactly the OCTOPUS_SPACE/--space message after the root fetch alone. |
| `ApiClientTests.UnknownSpace` | pkg/apiclient/apiclient_test.go:123-140 | An unknown selector fails with `cannot find space 'Integrations'` after the root fetch and the listing. |
| `ApiClientTests.SpaceByIdOrName` | pkg/apiclient/apiclient_test.go:142-240 | Each of the four selectors gives a client for `Spaces-7`. The requests are root, listing, root, then `/api/Spaces-7`. |
| `ApiClientTests.SpacedClientIsCached` | pkg/apiclient/apiclient_test.go:275-305 | Selector `Integrations` gives a client for `Spaces-7` after root, listing, root and `/api/Spaces-7`. A second call returns the same handle with no more requests. |
| `ApiClientTests.NameBeatsIdThenCached` | pkg/apiclient/apiclient_test.go:242-305 | Combines the collision test with a second call. The colliding selector gives a client for `Spaces-209` after root, listing, root and `/api/Spaces-209`. A second call returns the same handle with no more requests. |
| `ApiClientTests.SpacedClientSendsBearerToken` | pkg/apiclient/apiclient_test.go:307-330 | A spaced build sends root, listing, root and `/api/Spaces-7`, in that order, and each carries `Bearer token`. |
| `ApiClientTests.RetryAfterFailedListing` | test/testutil/fakefactory.go:70-76 | Interactive with no selector: a failed listing leaves the spaced cache empty. The next call lists again and binds the space the user picks (`Spaces-39`). Only the system client's root fetch is not repeated. |
| `ApiClientTests.RetryAfterFailure` | test/testutil/fakefactory.go:56-61 | A failed root fetch leaves the cache empty, so a later call builds the client again and succeeds. |
| `TestUtil.MockFactory.constructor` | test/testutil/fakefactory.go:19-27 | The server must be given. The new factory has empty caches, no space and no prompt provider. |
| `TestUtil.MockFactory.WithSpace` | test/testutil/fakefactory.go:29-31 | Same as above, with the given space and no prompt provider. |
| `TestUtil.MockFactory.WithSpaceAndPrompt` | test/testutil/fakefactory.go:33-38 | Same as above, with the given space and the given prompt provider. |
| `TestUtil.MockFactory.GetSystemClient` | test/testutil/fakefactory.go:53-64 | Returns the cached client untouched, or builds one with the fixed URL and API key and caches it. A failed build returns the error and leaves the cache empty. The spaced cache is never touched. |
| `TestUtil.MockFactory.GetSpacedClient` | test/testutil/fakefactory.go:65-78 | With no current space it fails with the fixed message and changes nothing, even when a client is cached. Otherwise it returns the cached client, or builds one for the current space's ID and caches it. A failed build leaves the cache empty. The system cache is never touched. |
| `TestUtil.MockFactory.GetCurrentSpace` | test/testutil/fakefactory.go:79-81 | Returns the space the factory holds, unresolved and unchanged. |
| `TestUtil.MockFactory.IsPromptEnabled` | test/testutil/fakefactory.go:91-96 | True exactly when a provider is set and it reports itself interactive. |
| `TestUtil.MockFactory.Ask` | test/testutil/fakefactory.go:97-102 | With no provider, fails with the fixed message and changes nothing. Otherwise it returns what the provider's `Ask` yields. |

## Left out

- Coalescing of concurrent first calls onto one in-flight build is not modelled. The model is sequential, and no shown code implements coalescing.
- Case-insensitive comparison folds ASCII letters only. Go's `strings.EqualFold` also folds other Unicode letters.
- The factory constructor's own validation (a malformed URL, a missing credential) is not modelled. The real factory file is not part of this model, so the constructor never fails here.
- The HTTP transport, `url.Parse` and parsing of the root document are left out. The server is reduced to one reply per kind of request: the root fetch, the listing and the space document. Both root fetches within one call therefore get the same reply.
- The requester context passed to `GetSystemClient` and `GetSpacedClient` is dropped, because it carries no state.
- The prompt widget is left out. The labels and order of the options it offers are not modelled. A prompt answer is an index into the listed spaces, or the prompt's error. `Ask`'s prompt and response arguments are dropped too.
- `MockFactory` keeps no request log. The requests its client builds send are not recorded, since no test of the fake factory inspects them.
- `FakeSpinner`, `Spinner`, `GetCurrentHost` and `BuildVersion` are left out. They are constants or no-ops.
- The `azure-web-app list` command is left out. It only wires arguments through to another package.

=== FILE: apiclient.dfy ===
/** The client factory: lazily builds and caches a system client and a
    space-scoped client. Instead of doing I/O it records every request it
    would send in a ghost log, so the order of requests can be stated. */
module ApiClient {
  import opened Results
  import opened Spaces
  import opened Question
  import opened Sdk

  const SpaceNotSpecifiedMessage :=
    "space must be specified when not running interactively; please set the OCTOPUS_SPACE environment variable or specify --space on the command line"

  /** The prompt can only hand back one of the options it offered. It
      constrains only a prompt that is actually asked: no selector, a prompt
      available, the spaces listed, and not exactly one space to auto-select. */
  predicate AnswerFits(selector: string, ask: AskProvider, spaces: seq<Space>)
  {
    selector == "" && ask.interactive && |spaces| != 1 && ask.answer.Success? ==> ask.answer.value < |spaces|
  }

  /** Picks the space a spaced client is bound to, once the spaces are listed:
      by the selector when there is one; otherwise, interactively, the only
      space, or the one the user picks. */
  function ChooseSpace(selector: string, ask: AskProvider, spaces: seq<Space>): (r: Result<string, string>)
    requires selector != "" || ask.interactive
    requires AnswerFits(selector, ask, spaces)
    ensures selector != "" ==> r == ResolveSpace(selector, spaces)
    ensures selector == "" && |spaces| == 1 ==> r == Success(spaces[0].id)
    ensures selector == "" && |spaces| != 1 && ask.answer.Success? ==> r == Success(spaces[ask.answer.value].id)
    ensures selector == "" && |spaces| != 1 && ask.answer.Failure? ==> r == Failure(ask.answer.error)
    ensures r.Success? ==> exists i :: 0 <= i < |spaces| && spaces[i].id == r.value
  {
    if selector != "" then ResolveSpace(selector, spaces)
    else if |spaces| == 1 then Success(spaces[0].id)
    else
      match ask.answer
      case Success(i) => Success(spaces[i].id)
      case Failure(e) => Failure(e)
  }

  class ClientFactory {
    const server: HttpServer
    const url: string
    const credential: Credential
    const spaceSelector: string   // "" when no space was given
    const ask: AskProvider
    var systemClient: Client?
    var spacedClient: Client?
    /** Every request sent so far, oldest first. */
    ghost var requests: seq<Request>

    /** A request carrying this factory's credential. */
    function Authorized(e: Endpoint): Request
    {
      Request(e, AuthorizationValue(credential))
    }

    /** Cached handles belong to this factory's server and credential; the
        system client is unscoped; every request carries the credential. */
    ghost predicate Valid()
      reads this
    {
      && (systemClient != null ==>
            systemClient.url == url && systemClient.credential == credential && systemClient.spaceId == "")
      && (spacedClient != null ==>
            spacedClient.url == url && spacedClient.credential == credential)
      && forall k :: 0 <= k < |requests| ==> requests[k].authorization == AuthorizationValue(credential)
    }

    constructor (server: HttpServer, url: string, credential: Credential, spaceSelector: string, ask: AskProvider)
      ensures Valid()
      ensures this.server == server && this.url == url && this.credential == credential
      ensures this.spaceSelector == spaceSelector && this.ask == ask
      ensures systemClient == null && spacedClient == null && requests == []
    {
      this.server := server;
      this.url := url;
      this.credential := credential;
      this.spaceSelector := spaceSelector;
      this.ask := ask;
      systemClient := null;
      spacedClient := null;
      requests := [];
    }

    /** Returns the cached system client, or builds one (one root fetch) and
        caches it. A failed build leaves the cache empty. */
    method GetSystemClient() returns (r: Result<Client, string>)
      requires Valid()
      modifies this`systemClient, this`requests
      ensures Valid()
      ensures old(systemClient) != null ==>
        r == Success(old(systemClient)) && systemClient == old(systemClient) && requests == old(requests)
      ensures old(systemClient) == null ==> requests == old(requests) + [Authorized(Root)]
      ensures old(systemClient) == null ==> (r.Success? <==> server.replies.root.Pass?)
      ensures old(systemClient) == null && r.Success? ==> fresh(r.value)
      ensures r.Success? ==> systemClient == r.value
      ensures r.Failure? ==> systemClient == null && r.error == server.replies.root.error
    {
      if systemClient == null {
        var c;
        ghost var sent;
        c, sent := NewClient(server, url, credential, "");
        requests := requests + sent;
        if c.Failure? {
          r := Failure(c.error);
          return;
        }
        systemClient := c.value;
      }
      r := Success(systemClient);
    }

    /** What a spaced-client build does once the system client is in hand,
        `pre` being the request log at that point: the early error for a
        missing selector without a prompt, else the listing, the choice of
        space, and the construction of the space-scoped client. */
    ghost predicate BuiltAfterSystemClient(pre: seq<Request>, r: Result<Client, string>)
      requires server.replies.allSpaces.Success? ==> AnswerFits(spaceSelector, ask, server.replies.allSpaces.value)
      reads this, server
    {
      var replies := server.replies;
      if spaceSelector == "" && !ask.interactive then
        r == Failure(SpaceNotSpecifiedMessage) && requests == pre
      else if replies.allSpaces.Failure? then
        r == Failure(replies.allSpaces.error) && requests == pre + [Authorized(AllSpaces)]
      else
        var chosen := ChooseSpace(spaceSelector, ask, replies.allSpaces.value);
        if chosen.Failure? then
          r == Failure(chosen.error) && requests == pre + [Authorized(AllSpaces)]
        else
          && requests == pre + [Authorized(AllSpaces)] + ConnectRequests(replies, credential, chosen.value)
          && (r.Success? <==> Connects(replies, chosen.value))
          && (r.Success? ==> r.value.spaceId == chosen.value)
          && (r.Failure? ==> r.error == ConnectError(replies, chosen.value))
    }

    /** Returns the cached spaced client, or builds one: obtain the system
        client, list the spaces, choose one, construct a client bound to it,
        cache it. A failed build never fills the spaced-client cache. */
    method GetSpacedClient() returns (r: Result<Client, string>)
      requires Valid()
      requires server.replies.allSpaces.Success? ==> AnswerFits(spaceSelector, ask, server.replies.allSpaces.value)
      modifies this`systemClient, this`spacedClient, this`requests
      ensures Valid()
      ensures old(systemClient) != null ==> systemClient == old(systemClient)
      ensures old(spacedClient) != null ==>
        && r == Success(old(spacedClient)) && spacedClient == old(spacedClient)
        && systemClient == old(systemClient) && requests == old(requests)
      ensures r.Success? ==> spacedClient == r.value
      ensures r.Failure? ==> spacedClient == null
      ensures old(spacedClient) == null && r.Success? ==> fresh(r.value)
      ensures old(spacedClient) == null && old(systemClient) == null && server.replies.root.Fail? ==>
        && r == Failure(server.replies.root.error) && systemClient == null
        && requests == old(requests) + [Authorized(Root)]
      ensures old(spacedClient) == null && (old(systemClient) != null || server.replies.root.Pass?) ==>
        && systemClient != null
        && BuiltAfterSystemClient(old(requests) + (if old(systemClient) == null then [Authorized(Root)] else []), r)
    {
      if spacedClient != null {
        r := Success(spacedClient);
        return;
      }
      var system := GetSystemClient();
      if system.Failure? {
        r := Failure(system.error);
        return;
      }
      r := BuildSpacedClient(system.value);
    }

    /** The part of a spaced-client build after the system client is obtained. */
    method BuildSpacedClient(system: Client) returns (r: Result<Client, string>)
      requires Valid() && spacedClient == null && systemClient == system
      requires server.replies.allSpaces.Success? ==> AnswerFits(spaceSelector, ask, server.replies.allSpaces.value)
      modifies this`spacedClient, this`requests
      ensures Valid()
      ensures BuiltAfterSystemClient(old(requests), r)
      ensures r.Success? ==> fresh(r.value) && spacedClient == r.value
      ensures r.Failure? ==> spacedClient == null
    {
      if spaceSelector == "" && !ask.interactive {
        r := Failure(SpaceNotSpecifiedMessage);
        return;
      }
      var listed;
      ghost var sent;
      listed, sent := GetAllSpaces(server, system);
      requests := requests + sent;
      if listed.Failure? {
        r := Failure(listed.error);
        return;
      }
      var chosen := ChooseSpace(spaceSelector, ask, listed.value);
      if chosen.Failure? {
        r := Failure(chosen.error);
        return;
      }
      var c;
      c, sent := NewClient(server, url, credential, chosen.value);
      requests := requests + sent;
      if c.Failure? {
        r := Failure(c.error);
        return;
      }
      spacedClient := c.value;
      r := Success(c.value);
    }
  }
}

=== FILE: apiclient_test.dfy ===
/** The client factory's tests, replayed against the model: each method sets
    up the server replies a test scripts, drives the factory, and states what
    the test asserts together with the exact requests sent. `qa` is any
    non-interactive prompt provider. The last method, RetryAfterFailure, has
    no counterpart among those tests: it exercises the lazy-creation rule
    that a failed build leaves the cache empty. */
module ApiClientTests {
  import opened Results
  import opened Spaces
  import opened Question
  import opened Sdk
  import opened ApiClient
  import opened TestUtil

  const RootOnly := Replies(Pass, Success([]), Pass)

  /** A second call returns the same handle and sends nothing more. */
  method SystemClientIsCached(qa: AskProvider)
    returns (first: Result<Client, string>, second: Result<Client, string>, ghost log: seq<Request>)
    requires !qa.interactive
    ensures first.Success? && second == first
    ensures log == [Request(Root, PlaceholderApiKey)]
  {
    var api := new HttpServer(RootOnly);
    var factory := new ClientFactory(api, ServerUrl, ApiKey(PlaceholderApiKey), "", qa);
    first := factory.GetSystemClient();
    second := factory.GetSystemClient();
    log := factory.requests;
  }

  /** With an access token, the root fetch carries `Bearer token`. */
  method SystemClientSendsBearerToken(qa: AskProvider)
    returns (r: Result<Client, string>, ghost log: seq<Request>)
    requires !qa.interactive
    ensures r.Success? && r.value.spaceId == ""
    ensures log == [Request(Root, "Bearer token")]
  {
    var api := new HttpServer(RootOnly);
    var factory := new ClientFactory(api, ServerUrl, AccessToken("token"), "", qa);
    assert AuthorizationValue(AccessToken("token")) == "Bearer token";
    r := factory.GetSystemClient();
    log := factory.requests;
  }

  /** No space and no prompt: an error after the root fetch alone; the
      spaces are never listed, so it does not matter which the server has. */
  method NoSpaceWithoutPrompt(qa: AskProvider, listing: Result<seq<Space>, string>)
    returns (r: Result<Client, string>, ghost log: seq<Request>)
    requires !qa.interactive
    ensures r == Failure(SpaceNotSpecifiedMessage)
    ensures log == [Request(Root, PlaceholderApiKey)]
  {
    var api := new HttpServer(Replies(Pass, listing, Pass));
    var factory := new ClientFactory(api, ServerUrl, ApiKey(PlaceholderApiKey), "", qa);
    r := factory.GetSpacedClient();
    log := factory.requests;
  }

  /** An unknown space: the error names the selector; nothing is cached. */
  method UnknownSpace(qa: AskProvider)
    returns (r: Result<Client, string>, ghost log: seq<Request>)
    requires !qa.interactive
    ensures r == Failure("cannot find space 'Integrations'")
    ensures log == [Request(Root, PlaceholderApiKey), Request(AllSpaces, PlaceholderApiKey)]
  {
    var api := new HttpServer(Replies(Pass, Success([Cloud]), Pass));
    var factory := new ClientFactory(api, ServerUrl, ApiKey(PlaceholderApiKey), "Integrations", qa);
    UnknownSelectorNotFound();
    r := factory.GetSpacedClient();
    log := factory.requests;
  }

  /** Selecting Spaces-7 by ID or by name, in any letter case: root, listing,
      root again, then the space document of Spaces-7. */
  method SpaceByIdOrName(qa: AskProvider, selector: string)
    returns (r: Result<Client, string>, ghost log: seq<Request>)
    requires !qa.interactive
    requires selector in ["Spaces-7", "spaCeS-7", "Integrations", "iNtegrationS"]
    ensures r.Success? && r.value.spaceId == "Spaces-7"
    ensures log == [Request(Root, PlaceholderApiKey), Request(AllSpaces, PlaceholderApiKey),
                    Request(Root, PlaceholderApiKey), Request(SpaceById("Spaces-7"), PlaceholderApiKey)]
  {
    var api := new HttpServer(Replies(Pass, Success([Integrations]), Pass));
    var factory := new ClientFactory(api, ServerUrl, ApiKey(PlaceholderApiKey), selector, qa);
    ResolvesById();
    ResolvesByName();
    r := factory.GetSpacedClient();
    log := factory.requests;
  }

  /** The collision setup combined with a second call: "Spaces-7" binds to
      Spaces-209 by name, and a second call returns the same handle and sends
      nothing more. */
  method NameBeatsIdThenCached(qa: AskProvider)
    returns (first: Result<Client, string>, second: Result<Client, string>, ghost log: seq<Request>)
    requires !qa.interactive
    ensures first.Success? && first.value.spaceId == "Spaces-209" && second == first
    ensures log == [Request(Root, PlaceholderApiKey), Request(AllSpaces, PlaceholderApiKey),
                    Request(Root, PlaceholderApiKey), Request(SpaceById("Spaces-209"), PlaceholderApiKey)]
  {
    var api := new HttpServer(Replies(Pass, Success([Missed, NamedLikeAnId]), Pass));
    var factory := new ClientFactory(api, ServerUrl, ApiKey(PlaceholderApiKey), "Spaces-7", qa);
    CollisionResolvesByName();
    first := factory.GetSpacedClient();
    second := factory.GetSpacedClient();
    log := factory.requests;
  }

  /** Selecting Integrations by name, then calling again: the second call
      returns the same handle and sends nothing more. */
  method SpacedClientIsCached(qa: AskProvider)
    returns (first: Result<Client, string>, second: Result<Client, string>, ghost log: seq<Request>)
    requires !qa.interactive
    ensures first.Success? && first.value.spaceId == "Spaces-7" && second == first
    ensures log == [Request(Root, PlaceholderApiKey), Request(AllSpaces, PlaceholderApiKey),
                    Request(Root, PlaceholderApiKey), Request(SpaceById("Spaces-7"), PlaceholderApiKey)]
  {
    var api := new HttpServer(Replies(Pass, Success([Integrations]), Pass));
    var factory := new ClientFactory(api, ServerUrl, ApiKey(PlaceholderApiKey), "Integrations", qa);
    ResolvesByName();
    first := factory.GetSpacedClient();
    second := factory.GetSpacedClient();
    log := factory.requests;
  }

  /** With an access token, all four requests carry `Bearer token`. */
  method SpacedClientSendsBearerToken(qa: AskProvider)
    returns (r: Result<Client, string>, ghost log: seq<Request>)
    requires !qa.interactive
    ensures r.Success? && r.value.spaceId == "Spaces-7"
    ensures log == [Request(Root, "Bearer token"), Request(AllSpaces, "Bearer token"),
                    Request(Root, "Bearer token"), Request(SpaceById("Spaces-7"), "Bearer token")]
  {
    var api := new HttpServer(Replies(Pass, Success([Integrations]), Pass));
    var factory := new ClientFactory(api, ServerUrl, AccessToken("token"), "Spaces-7", qa);
    assert AuthorizationValue(AccessToken("token")) == "Bearer token";
    ResolvesById();
    r := factory.GetSpacedClient();
    log := factory.requests;
  }

  /** Interactive, no selector: a failed listing leaves the spaced cache
      empty, so the next call lists again and uses the user's pick. Like
      RetryAfterFailure, no test of the factory covers this. */
  method RetryAfterFailedListing()
    returns (first: Result<Client, string>, second: Result<Client, string>, ghost log: seq<Request>)
    ensures first == Failure("listing failed") && second.Success? && second.value.spaceId == "Spaces-39"
    ensures log == [Request(Root, PlaceholderApiKey), Request(AllSpaces, PlaceholderApiKey),
                    Request(AllSpaces, PlaceholderApiKey),
                    Request(Root, PlaceholderApiKey), Request(SpaceById("Spaces-39"), PlaceholderApiKey)]
  {
    var api := new HttpServer(Replies(Pass, Failure("listing failed"), Pass));
    var prompt := AskProvider(true, Success(1));
    var factory := new ClientFactory(api, ServerUrl, ApiKey(PlaceholderApiKey), "", prompt);
    first := factory.GetSpacedClient();
    api.replies := Replies(Pass, Success([Integrations, Cloud]), Pass);
    second := factory.GetSpacedClient();
    log := factory.requests;
  }

  /** A failed build leaves the cache empty, so the next call builds afresh
      and succeeds once the server answers. No test of the factory covers
      this; it follows the lazy-creation rule the fake factory shares with
      the real one. */
  method RetryAfterFailure(qa: AskProvider)
    returns (first: Result<Client, string>, second: Result<Client, string>, ghost log: seq<Request>)
    requires !qa.interactive
    ensures first == Failure("connection refused") && second.Success?
    ensures log == [Request(Root, PlaceholderApiKey), Request(Root, PlaceholderApiKey)]
  {
    var api := new HttpServer(Replies(Fail("connection refused"), Success([]), Pass));
    var factory := new ClientFactory(api, ServerUrl, ApiKey(PlaceholderApiKey), "", qa);
    first := factory.GetSystemClient();
    api.replies := RootOnly;
    second := factory.GetSystemClient();
    log := factory.requests;
  }
}

=== FILE: fakefactory.dfy ===
/** The fake factory unit tests use in place of the real one: the same lazy
    caching of a system client and a space-scoped client, against a mock
    server, with a fixed server URL and API key, and a space and prompt
    capability that tests set directly. */
module TestUtil {
  import opened Results
  import opened Spaces
  import opened Question
  import opened Sdk

  const ServerUrl := "http://server"
  const PlaceholderApiKey := "API-XXXXXXXXXXXXXXXXXXXXXXXXXXXXX"
  const NoCurrentSpaceMessage := "can't get space-scoped client from MockFactory while CurrentSpace is nil"
  const NoAskProviderMessage := "method Ask called on fake factory when provider was nil"

  class MockFactory {
    const api: HttpServer
    var systemClient: Client?
    var spaceScopedClient: Client?
    var currentSpace: Option<Space>
    var askProvider: Option<AskProvider>

    /** Cached handles are bound to the fixed server and key; the system
        client is unscoped. */
    ghost predicate Valid()
      reads this
    {
      && (systemClient != null ==>
            systemClient.url == ServerUrl && systemClient.credential == ApiKey(PlaceholderApiKey) && systemClient.spaceId == "")
      && (spaceScopedClient != null ==>
            spaceScopedClient.url == ServerUrl && spaceScopedClient.credential == ApiKey(PlaceholderApiKey))
    }

    /** A fake factory with no space, no prompt and empty caches. The server
        must be given. */
    constructor (api: HttpServer?)
      requires api != null
      ensures Valid() && this.api == api
      ensures systemClient == null && spaceScopedClient == null
      ensures currentSpace == None && askProvider == None
    {
      this.api := api;
      systemClient := null;
      spaceScopedClient := null;
      currentSpace := None;
      askProvider := None;
    }

    constructor WithSpace(api: HttpServer?, space: Option<Space>)
      requires api != null
      ensures Valid() && this.api == api
      ensures systemClient == null && spaceScopedClient == null
      ensures currentSpace == space && askProvider == None
    {
      this.api := api;
      systemClient := null;
      spaceScopedClient := null;
      currentSpace := space;
      askProvider := None;
    }

    constructor WithSpaceAndPrompt(api: HttpServer?, space: Option<Space>, askProvider: Option<AskProvider>)
      requires api != null
      ensures Valid() && this.api == api
      ensures systemClient == null && spaceScopedClient == null
      ensures currentSpace == space && this.askProvider == askProvider
    {
      this.api := api;
      systemClient := null;
      spaceScopedClient := null;
      currentSpace := space;
      this.askProvider := askProvider;
    }

    /** Returns the cached system client, or constructs one and caches it.
        A failed construction returns the error and leaves the cache empty. */
    method GetSystemClient() returns (r: Result<Client, string>)
      requires Valid()
      modifies this`systemClient
      ensures Valid()
      ensures old(systemClient) != null ==> r == Success(old(systemClient)) && systemClient == old(systemClient)
      ensures old(systemClient) == null ==> (r.Success? <==> Connects(api.replies, ""))
      ensures old(systemClient) == null && r.Success? ==> fresh(r.value) && systemClient == r.value
      ensures r.Failure? ==> systemClient == null && r.error == ConnectError(api.replies, "")
    {
      if systemClient == null {
        var c;
        ghost var sent;
        c, sent := NewClient(api, ServerUrl, ApiKey(PlaceholderApiKey), "");
        if c.Failure? {
          r := Failure(c.error);
          return;
        }
        systemClient := c.value;
      }
      r := Success(systemClient);
    }

    /** Refuses while no space is set, even when a client is cached; otherwise
        returns the cached space-scoped client, or constructs one for the
        current space's ID and caches it. */
    method GetSpacedClient() returns (r: Result<Client, string>)
      requires Valid()
      modifies this`spaceScopedClient
      ensures Valid()
      ensures currentSpace.None? ==>
        r == Failure(NoCurrentSpaceMessage) && spaceScopedClient == old(spaceScopedClient)
      ensures currentSpace.Some? && old(spaceScopedClient) != null ==>
        r == Success(old(spaceScopedClient)) && spaceScopedClient == old(spaceScopedClient)
      ensures currentSpace.Some? && old(spaceScopedClient) == null ==>
        (r.Success? <==> Connects(api.replies, currentSpace.value.id))
      ensures currentSpace.Some? && old(spaceScopedClient) == null && r.Success? ==>
        fresh(r.value) && spaceScopedClient == r.value && r.value.spaceId == currentSpace.value.id
      ensures currentSpace.Some? && r.Failure? ==>
        spaceScopedClient == null && r.error == ConnectError(api.replies, currentSpace.value.id)
    {
      if currentSpace.None? {
        r := Failure(NoCurrentSpaceMessage);
        return;
      }
      if spaceScopedClient == null {
        var c;
        ghost var sent;
        c, sent := NewClient(api, ServerUrl, ApiKey(PlaceholderApiKey), currentSpace.value.id);
        if c.Failure? {
          r := Failure(c.error);
          return;
        }
        spaceScopedClient := c.value;
      }
      r := Success(spaceScopedClient);
    }

    /** The space the factory was given; a fake factory never resolves one. */
    function GetCurrentSpace(): (s: Option<Space>)
      reads this
      ensures s == currentSpace
    {
      currentSpace
    }

    /** Prompting is on only with a provider that reports itself interactive. */
    function IsPromptEnabled(): (enabled: bool)
      reads this
      ensures enabled <==> askProvider.Some? && askProvider.value.interactive
    {
      match askProvider
      case None => false
      case Some(p) => p.interactive
    }

    /** Delegates to the provider; without one, fails with a fixed error. */
    method Ask() returns (o: Outcome<string>)
      ensures askProvider.None? ==> o == Fail(NoAskProviderMessage)
      ensures askProvider.Some? ==> o == askProvider.value.Ask()
    {
      if askProvider.None? {
        o := Fail(NoAskProviderMessage);
        return;
      }
      o := askProvider.value.Ask();
    }
  }
}

=== FILE: question.dfy ===
/** The prompt capability the factories are handed (an "ask provider"),
    reduced to what the factories consult: whether prompting is possible, and
    what asking yields. */
module Question {
  import opened Results

  /** `interactive` is what `IsInteractive()` reports. `answer` is what an
      `Ask` call would yield: the index of the option the user picked, or the
      error the prompt ended with. */
  datatype AskProvider = AskProvider(interactive: bool, answer: Result<nat, string>)
  {
    /** The error outcome of one `Ask` call. */
    function Ask(): Outcome<string>
    {
      match answer
      case Success(_) => Pass
      case Failure(e) => Fail(e)
    }
  }
}

=== FILE: results.dfy ===
/** Wrappers used throughout the model: Go's `(value, error)`
    pairs become `Result`, a bare `error` return becomes `Outcome`, and a nil-able
    pointer to a value becomes `Option`. */
module Results {

  datatype Option<+T> = None | Some(value: T)

  datatype Result<+T, +E> = Success(value: T) | Failure(error: E)

  datatype Outcome<+E> = Pass | Fail(error: E)
}

=== FILE: sdk.dfy ===
/** The parts of the server SDK the factories rely on, as opaque stand-ins:
    credentials, the requests a client issues, the server's replies, client
    handles, and the fallible client constructor. */
module Sdk {
  import opened Results
  import opened Spaces

  /** The two credential kinds a factory can be given. */
  datatype Credential = ApiKey(key: string) | AccessToken(token: string)

  /** The authentication header value every request carries. */
  function AuthorizationValue(c: Credential): string
  {
    match c
    case ApiKey(key) => key
    case AccessToken(token) => "Bearer " + token
  }

  /** The server resources the factories fetch; every request is a GET. */
  datatype Endpoint =
    | Root                   // GET /api
    | AllSpaces              // GET /api/spaces/all
    | SpaceById(id: string)  // GET /api/<id>

  datatype Request = Request(endpoint: Endpoint, authorization: string)

  /** How the server answers at a given moment: the root document fetch, the
      space listing, and the fetch of a space document. */
  datatype Replies = Replies(root: Outcome<string>, allSpaces: Result<seq<Space>, string>, space: Outcome<string>)

  /** The server the factories talk to. Its replies can be re-scripted between
      calls, as a test re-arms its mock server. */
  class HttpServer {
    var replies: Replies

    constructor (replies: Replies)
      ensures this.replies == replies
    {
      this.replies := replies;
    }
  }

  /** An opaque client handle bound to a server URL, a credential and a space
      ID ("" for the unscoped, system client). Identity is object identity. */
  class Client {
    const url: string
    const credential: Credential
    const spaceId: string

    constructor (url: string, credential: Credential, spaceId: string)
      ensures this.url == url && this.credential == credential && this.spaceId == spaceId
    {
      this.url := url;
      this.credential := credential;
      this.spaceId := spaceId;
    }
  }

  /** Whether constructing a client for `spaceId` succeeds: the root document
      must load, and for a space-scoped client so must the space document. */
  predicate Connects(replies: Replies, spaceId: string)
  {
    replies.root.Pass? && (spaceId == "" || replies.space.Pass?)
  }

  function ConnectError(replies: Replies, spaceId: string): string
    requires !Connects(replies, spaceId)
  {
    if replies.root.Fail? then replies.root.error else replies.space.error
  }

  /** The requests the client constructor issues: the root document, then,
      for a space-scoped client whose root loaded, the space document. */
  function ConnectRequests(replies: Replies, credential: Credential, spaceId: string): seq<Request>
  {
    var auth := AuthorizationValue(credential);
    if spaceId == "" || replies.root.Fail? then [Request(Root, auth)]
    else [Request(Root, auth), Request(SpaceById(spaceId), auth)]
  }

  /** The SDK's client constructor: builds a fresh handle or fails with the
      server's error. */
  method NewClient(server: HttpServer, url: string, credential: Credential, spaceId: string)
    returns (r: Result<Client, string>, ghost sent: seq<Request>)
    ensures sent == ConnectRequests(server.replies, credential, spaceId)
    ensures r.Success? <==> Connects(server.replies, spaceId)
    ensures r.Failure? ==> r.error == ConnectError(server.replies, spaceId)
    ensures r.Success? ==> fresh(r.value)
    ensures r.Success? ==> r.value.url == url && r.value.credential == credential && r.value.spaceId == spaceId
  {
    sent := ConnectRequests(server.replies, credential, spaceId);
    if !Connects(server.replies, spaceId) {
      r := Failure(ConnectError(server.replies, spaceId));
    } else {
      var c := new Client(url, credential, spaceId);
      r := Success(c);
    }
  }

  /** Lists every space through an existing client. */
  method GetAllSpaces(server: HttpServer, client: Client)
    returns (r: Result<seq<Space>, string>, ghost sent: seq<Request>)
    ensures r == server.replies.allSpaces
    ensures sent == [Request(AllSpaces, AuthorizationValue(client.credential))]
  {
    r := server.replies.allSpaces;
    sent := [Request(AllSpaces, AuthorizationValue(client.credential))];
  }
}

=== FILE: spaces.dfy ===
/** Space resolution: which space a user-supplied selector (an ID or a name,
    in any letter case) denotes among the spaces the server lists. */
module Spaces {
  import opened Results

  /** A space as returned by `GET /api/spaces/all`, reduced to the two fields
      resolution compares against. */
  datatype Space = Space(id: string, name: string)

  /** The field of a space a selector is compared with. */
  datatype Field = Id | Name

  function Key(s: Space, f: Field): string
  {
    match f
    case Id => s.id
    case Name => s.name
  }

  /** ASCII lower-casing of one character. */
  function LowerChar(c: char): char
  {
    if 'A' <= c <= 'Z' then (c as int + 32) as char else c
  }

  function Lower(s: string): string
  {
    seq(|s|, i requires 0 <= i < |s| => LowerChar(s[i]))
  }

  /** Case-insensitive string equality. */
  predicate EqualFold(a: string, b: string)
  {
    Lower(a) == Lower(b)
  }

  predicate Matches(selector: string, s: Space, f: Field)
  {
    EqualFold(Key(s, f), selector)
  }

  /** The index of the first space whose field `f` matches the selector. */
  function FirstMatch(selector: string, spaces: seq<Space>, f: Field): (r: Option<nat>)
    ensures r.Some? ==> r.value < |spaces| && Matches(selector, spaces[r.value], f)
    ensures r.Some? ==> forall j :: 0 <= j < r.value ==> !Matches(selector, spaces[j], f)
    ensures r.None? ==> forall j :: 0 <= j < |spaces| ==> !Matches(selector, spaces[j], f)
  {
    if spaces == [] then None
    else if Matches(selector, spaces[0], f) then Some(0)
    else
      match FirstMatch(selector, spaces[1..], f)
      case None => None
      case Some(k) => Some(k + 1)
  }

  /** Resolves a selector to the ID of a space. The first space whose NAME
      matches wins; only when no name matches is the first space whose ID
      matches taken; otherwise the selector is reported as not found. */
  function ResolveSpace(selector: string, spaces: seq<Space>): (r: Result<string, string>)
    ensures r.Failure? <==>
      forall i :: 0 <= i < |spaces| ==> !Matches(selector, spaces[i], Name) && !Matches(selector, spaces[i], Id)
    ensures r.Failure? ==> r.error == "cannot find space '" + selector + "'"
    ensures r.Success? ==>
      exists i :: 0 <= i < |spaces| && spaces[i].id == r.value &&
        (Matches(selector, spaces[i], Name) || Matches(selector, spaces[i], Id))
  {
    match FirstMatch(selector, spaces, Name)
    case Some(i) => Success(spaces[i].id)
    case None =>
      match FirstMatch(selector, spaces, Id)
      case Some(i) => Success(spaces[i].id)
      case None => Failure("cannot find space '" + selector + "'")
  }

  /** A name match beats every ID match: the result is the ID of the first
      space whose name matches, wherever ID matches occur in the list. */
  lemma NameWins(selector: string, spaces: seq<Space>, i: nat)
    requires i < |spaces| && Matches(selector, spaces[i], Name)
    requires forall j :: 0 <= j < i ==> !Matches(selector, spaces[j], Name)
    ensures ResolveSpace(selector, spaces) == Success(spaces[i].id)
  {
  }

  /** Without any name match, the first space whose ID matches is chosen. */
  lemma IdFallback(selector: string, spaces: seq<Space>, i: nat)
    requires forall j :: 0 <= j < |spaces| ==> !Matches(selector, spaces[j], Name)
    requires i < |spaces| && Matches(selector, spaces[i], Id)
    requires forall j :: 0 <= j < i ==> !Matches(selector, spaces[j], Id)
    ensures ResolveSpace(selector, spaces) == Success(spaces[i].id)
  {
  }

  // Follows from FirstMatch's contract: equal-up-to-case selectors match the same spaces.
  lemma FirstMatchIgnoresCase(a: string, b: string, spaces: seq<Space>, f: Field)
    requires EqualFold(a, b)
    ensures FirstMatch(a, spaces, f) == FirstMatch(b, spaces, f)
  {
  }

  /** Two selectors that differ only in letter case resolve to the same space,
      and one is not found exactly when the other is not. */
  lemma ResolveIgnoresCase(a: string, b: string, spaces: seq<Space>)
    requires EqualFold(a, b)
    ensures ResolveSpace(a, spaces).Failure? == ResolveSpace(b, spaces).Failure?
    ensures ResolveSpace(a, spaces).Success? ==> ResolveSpace(a, spaces) == ResolveSpace(b, spaces)
  {
    FirstMatchIgnoresCase(a, b, spaces, Name);
    FirstMatchIgnoresCase(a, b, spaces, Id);
  }

  // The spaces used by the tests of the client factory.
  const Integrations := Space("Spaces-7", "Integrations")
  const Cloud := Space("Spaces-39", "Cloud")
  const Missed := Space("Spaces-7", "Missed")
  const NamedLikeAnId := Space("Spaces-209", "Spaces-7")

  /** Selecting by ID, in the case the server uses or in any other. */
  lemma ResolvesById()
    ensures ResolveSpace("Spaces-7", [Integrations]) == Success("Spaces-7")
    ensures ResolveSpace("spaCeS-7", [Integrations]) == Success("Spaces-7")
  {
    assert EqualFold("spaCeS-7", "Spaces-7");
    ResolveIgnoresCase("spaCeS-7", "Spaces-7", [Integrations]);
    IdFallback("Spaces-7", [Integrations], 0);
  }

  /** Selecting by name, in the case the server uses or in any other. */
  lemma ResolvesByName()
    ensures ResolveSpace("Integrations", [Integrations]) == Success("Spaces-7")
    ensures ResolveSpace("iNtegrationS", [Integrations]) == Success("Spaces-7")
  {
    assert EqualFold("iNtegrationS", "Integrations");
    ResolveIgnoresCase("iNtegrationS", "Integrations", [Integrations]);
    NameWins("Integrations", [Integrations], 0);
  }

  /** "Spaces-7" is the ID of one space and the name of another: the name wins. */
  lemma CollisionResolvesByName()
    ensures ResolveSpace("Spaces-7", [Missed, NamedLikeAnId]) == Success("Spaces-209")
  {
    assert !Matches("Spaces-7", Missed, Name);
    NameWins("Spaces-7", [Missed, NamedLikeAnId], 1);
  }

  /** A selector matching nothing names itself in the error. */
  lemma UnknownSelectorNotFound()
    ensures ResolveSpace("Integrations", [Cloud]) == Failure("cannot find space 'Integrations'")
  {
    assert !Matches("Integrations", Cloud, Name);
    assert !Matches("Integrations", Cloud, Id);
    assert ResolveSpace("Integrations", [Cloud]).Failure?;
    assert "cannot find space '" + "Integrations" + "'" == "cannot find space 'Integrations'";
  }
}
